=== FILE: README.md ===
# Articles client: request helper and articles page

A model of the two pieces of logic in this React client that have behaviour
worth stating: the generic request helper `makeRequest` (with its query-string
builder) and the articles page component, whose state record is changed by a
handful of event handlers and by the settlement of the requests they issue.

- `js_value.dfy` (`JsValue`): the JavaScript values the page stores (the server's
  data is kept as it arrives), truthiness, property access (which throws on
  null/undefined) and the text a template literal produces.
- `strings.dfy` (`Strings`): join, split, count and prefix helpers used to state
  the shape of generated strings.
- `query_string.dfy` (`QueryString`): `objectToQueryString` as the reduce it is,
  its '?'/'&' shape, its separator count and a parse-back round trip.
- `request.dfy` (`Request`): `makeRequest` with `fetch` replaced by a
  `Transport` outcome (rejected, or a status and a parsed body or a parse
  failure): URL resolution, request-option assembly, and the classification
  into `{ data, success: true }`, `{ ...errorBody, success: false }` or
  `{ success: false }`.
- `articles_page.dfy` (`ArticlesPage`): the page's `useState` record and each
  handler as a pure function. An async handler is split into the step up to its
  `await`, which returns the request it issues as an effect, and the step after
  the promise settles. Starting the 3000 ms message timer is an effect too; its
  expiry is a separate transition.
- `page_runs.dfy` (`PageRuns`): runs of the page: user events, request
  settlements (each settled with what `makeRequest` resolves to) and timer
  expiries. It proves invariants of every reachable state. One consequence is that
  the `catch` branches of `handleSubmit` and `handleDelete` can never run: the
  helper never rejects. A failed submit or delete is therefore silent. The
  `catch` of `handleSummarize`, by contrast, is reachable from what the helper
  resolves to: a success whose body is `null` makes `response.data.summary`
  throw. No control on the page calls `handleSummarize`, so no run of the page
  gets there.

The base URL (`process.env.REACT_APP_API_BASE_URL`) is a parameter. `confirm()` is
a boolean parameter of the delete handler.

## Model

| member | source | states |
|---|---|---|
| QueryString.QueryStringShape | src/utils/request.js:1-4 | no entries give the empty string; n >= 1 entries give '?' followed by the `key=value` pairs joined by '&', in entry order, unencoded |
| QueryString.SeparatorCount | src/utils/request.js:2 | for n >= 1 entries the string starts with '?' and contains n - 1 separating '&' plus exactly the '&' the keys and values carry themselves |
| QueryString.ParseRoundTrip | src/utils/request.js:1-4 | when no key holds '&' or '=' and no value text holds '&', splitting the query string back yields every (key, value text) pair in entry order |
| Request.ParsedUrlResolves | src/utils/request.js:18 | a URL starting with "http" is used unchanged, any other becomes base ++ url; the URL always ends the result; resolving twice against an absolute base changes nothing |
| Request.NoQueryKeepsUrl | src/utils/request.js:6-21 | with `queryParams` absent, or with no second argument (default `{}`), the complete URL equals the parsed URL |
| Request.CompleteUrlExtends | src/utils/request.js:19-21 | with non-empty `queryParams` the complete URL is the parsed URL, then '?', then the joined pairs |
| Request.InitHeadersAndMethod | src/utils/request.js:25-35 | the method is 'GET' unless `options.method` is given; every caller header is sent with the caller's value; the JSON Content-Type is present iff the body is not FormData (unless the caller sets that key); no other header appears |
| Request.InitBody | src/utils/request.js:23-30 | a FormData body is passed through unchanged, any other defined body is sent as its JSON text, an undefined body is sent as no body |
| Request.DefaultInit | src/utils/request.js:11-35 | with no second argument the request is a GET with only the JSON Content-Type and no body |
| Request.Classify | src/utils/request.js:37-52 | the resolved object always has `success`, and it is true exactly when a body was parsed and the status lies in [200, 399] |
| Request.ClassifySuccess | src/utils/request.js:40-41 | a success carries exactly `data` (the parsed body) and `success` |
| Request.ClassifyErrorBody | src/utils/request.js:43-49 | any other status keeps every field the spread of the error body yields, except `success`, which is forced to false even when the body set it |
| Request.ClassifyErrorObject | src/utils/request.js:49 | an error object body comes back as itself with `success: false` |
| Request.Spread | src/utils/request.js:49 | spreading an object yields its fields; spreading a string or array yields, for each index i, the key `${i}` holding that character or element, and no key that is not such an index; anything else yields nothing |
| Request.ClassifyThrown | src/utils/request.js:50-52 | a rejection of `fetch` or of `response.json()` resolves to exactly `{ success: false }` |
| Request.MakeRequest | src/utils/request.js:6-53 | every call resolves to an object with `success`, and a successful one has `data` |
| ArticlesPage.FetchArticles | src/pages/articles-page.js:23-25 | up to its await the refresh changes no state and issues exactly the list request `FetchCall`, resumed by the fetch continuation |
| ArticlesPage.FetchSettled | src/pages/articles-page.js:23-35 | success replaces the list wholesale with `response.data`; failure or rejection keeps it; `loading` ends false; nothing else changes |
| ArticlesPage.FetchRequest | src/pages/articles-page.js:25 | the list is read with a GET of base ++ "/articles/" with no body |
| PageRuns.RefreshLastWins | src/pages/articles-page.js:23-35 | of two refreshes, the one that settles last with a success status (200 to 399) and a body that parses decides the list, whatever the earlier one got |
| ArticlesPage.OpenForm | src/pages/articles-page.js:41-46 | opens the form with the article (null when omitted) under edit; the draft takes the article's title and description when it is truthy and is empty otherwise; no other field changes |
| ArticlesPage.CloseForm | src/pages/articles-page.js:48-53 | the form is closed, nothing is under edit, the draft is empty, and no other field changes |
| ArticlesPage.CloseFormIdempotent | src/pages/articles-page.js:48-53 | closing twice equals closing once, and closing an already cleared form changes nothing |
| ArticlesPage.CloseUndoesOpen | src/pages/articles-page.js:41-53 | opening with any article and then closing is the same as just closing |
| ArticlesPage.EditTitle | src/components/article-form.js:18 | typing sets the draft title and nothing outside the form |
| ArticlesPage.EditDescription | src/components/article-form.js:25 | typing sets the draft description and nothing outside the form |
| ArticlesPage.Submit | src/pages/articles-page.js:55-66 | submitting raises `loading`, changes nothing else and issues exactly the PUT or POST of `SubmitCall`, whose continuation remembers whether an article was under edit |
| ArticlesPage.SubmitRequest | src/pages/articles-page.js:58-66 | while editing a truthy article: PUT to "/articles/" ++ its `_id`; otherwise POST to "/articles/"; the target is base ++ path, the body is the JSON of the current `{title, description}`, the only header is the JSON Content-Type |
| ArticlesPage.SubmitSettled | src/pages/articles-page.js:67-77 | success shows "Article updated/created successfully" (by the edit mode at submit time), arms its timer, refreshes and closes the form, and changes nothing else (the list, the summary fields and the modal stay); `success:false` changes nothing but `loading`; a rejection would show "Failed to process request" and arm its timer; `loading` is false afterwards in every case |
| ArticlesPage.Delete | src/pages/articles-page.js:80-85 | a declined confirmation issues no request; a confirmed one issues exactly the DELETE; the state is untouched either way |
| ArticlesPage.DeleteRequest | src/pages/articles-page.js:83-85 | the DELETE goes to base ++ "/articles/" ++ id with no body |
| ArticlesPage.DeleteSettled | src/pages/articles-page.js:86-93 | success shows "Article deleted successfully" and refreshes; `success:false` changes nothing; a rejection would show "Failed to delete article" and arm its timer; the list is never edited locally |
| ArticlesPage.Summarize | src/pages/articles-page.js:96-102 | up to its await, marks the article's id as pending, drops the previous summary, changes nothing else and issues exactly the summarize request for that id |
| ArticlesPage.SummarizeRequest | src/pages/articles-page.js:100-102 | the summary is requested with a POST to base ++ "/articles/" ++ id ++ "/summarize" with no body |
| ArticlesPage.SummarizeSettled | src/pages/articles-page.js:103-114 | `summarizing` ends null; success with a non-null `data` stores `data.summary`, opens the modal and starts no timer; `success:false` shows "Failed to summarize article", arms its timer and changes nothing else; a rejection, or a success whose `data` is null (the property read throws), shows "Error summarizing article" and arms its timer; the modal opens only on success |
| ArticlesPage.CloseSummary | src/pages/articles-page.js:152 | the modal's close button hides the modal and changes no other field, the summary text included |
| ArticlesPage.SummarizeThenClose | src/pages/articles-page.js:96-114 | starting with the summary modal closed and no summarize pending, a summary that arrives and is dismissed leaves the page as before the click except for the stored summary text |
| ArticlesPage.SummarizePendingCleared | src/pages/articles-page.js:96-114 | while the request runs the article's id is pending and the summary is null; the pending id is cleared for every outcome; a failure leaves the modal flag as it was |
| ArticlesPage.ShowMessage | src/pages/articles-page.js:18-21 | the message becomes the given text, no other field changes, and exactly one timer is started |
| ArticlesPage.TimerExpired | src/pages/articles-page.js:20 | the timer's expiry clears whatever message is displayed and changes no other field |
| ArticlesPage.EarlierTimerClearsNewerMessage | src/pages/articles-page.js:18-21 | after two messages in a row two timers are pending, and the first expiry already clears the second message |
| PageRuns.MountedInv | src/pages/articles-page.js:7-16 | the page as mounted (initial state, one list request in flight) satisfies the run invariant |
| PageRuns.NextInv | src/pages/articles-page.js:18-115 | every enabled event preserves the invariant: no catch message of submit or delete, a shown message has a timer pending, a closed form holds no draft, nothing is summarizing and the summary modal is closed |
| PageRuns.RunInv | src/pages/articles-page.js:18-115 | the invariant holds after any valid run from a state satisfying it |
| PageRuns.ReachableFacts | src/pages/articles-page.js:55-94 | from mounting on, "Failed to process request" and "Failed to delete article" never show, the summary modal never opens and a closed form holds no draft |
| PageRuns.HelperFailureIsSilent | src/pages/articles-page.js:67-89 | when the helper reports failure (error status, network or parse error), submit only resets `loading` and delete changes nothing and issues nothing |
| PageRuns.SummarizeCatchReachable | src/pages/articles-page.js:103-111 | for every success status (200 to 399), a response whose body parses to `null` (undefined is included for completeness; `response.json()` never yields it) makes the summarize handler show "Error summarizing article", arm its timer and clear `summarizing`, and change nothing else |

## Left out

- Search, embedding generation, notification severities, a "no changes detected" short-circuit on edit, backdrop-versus-panel click closing and description truncation are not in this code and are not modelled.
- A failed submit or delete shows no message. The code does call `showMessage("Failed to process request")` (src/pages/articles-page.js:73) and `showMessage("Failed to delete article")` (src/pages/articles-page.js:91), but only in `catch` branches that never run, because `makeRequest` never rejects. The model keeps both branches (the `Rejected` cases of `ArticlesPage.SubmitSettled` and `ArticlesPage.DeleteSettled`), and `PageRuns.ReachableFacts` proves that neither message ever shows.
- Rendering (JSX, the Loading label, the list markup) and the two presentational components. The model keeps only the title and description `onChange` setters of the form.
- The article card never calls `onSummarize`, and its `summarizing` prop is never read either. So no run of `PageRuns` can start a summarize. The handler is modelled on its own in `ArticlesPage`.
- The browser's `required` validation on the title and description inputs is not modelled. `PageRuns` admits submits with an empty draft, so its runs are a superset of the real ones.
- `fetch`, `response.json()`, `JSON.stringify` and the environment variable are foreign calls. A transport outcome stands for `fetch` and `response.json()`. The JSON text of a body is kept abstract. The base URL is a string parameter, and an unset variable would be the text "undefined".
- The `console.log`/`console.error` calls are left out, as are the React hook mechanics (`useCallback`, `useEffect` beyond the single fetch on mount).
- Real interleaving of concurrent handlers is left out. Each handler runs atomically up to its `await`, and settlements happen in any order.
- `setTimeout` and its 3000 ms delay are left out: a timer is a count of pending expiries, and an expiry is an event.
- Request.BuildInit: other keys of `options` (for example `credentials`) are spread into the request options unchanged. The model only carries `method`, `body` and `headers`. A `method` key that is present but undefined is not modelled.
- JavaScript numbers are modelled as integers only. Floating-point values, NaN and their text are not modelled.
- JsValue.Text: numbers are unbounded integers printed digit by digit. JavaScript numbers are doubles: integers beyond 2^53 do not exist, and from 10^21 on `${n}` prints exponential form (for example "1e+21"). Query strings and URLs built from such values differ from src/utils/request.js:2.
- JsValue.Member covers named properties other than `length`. Index properties of strings and arrays are not modelled. The page reads none of these.
- QueryString.ObjectToQueryString takes the entries in the order `Object.entries` returns them. JavaScript's placement of integer-like keys first is not modelled.
- Request.Spread: spreading a string yields one entry per Dafny character (a Unicode scalar value). JavaScript spreads UTF-16 code units, which differ for characters outside the Basic Multilingual Plane.
- Header names are compared case-sensitively, as the object spread does; `fetch`'s case-insensitive merging is not modelled.

=== FILE: articles_page.dfy ===
/**
 * The articles page component: its state record and each event handler as a
 * pure transition. An async handler is split into the step that runs up to
 * its `await` (returning the request it issues) and the step that runs once
 * the awaited promise settles. Timers and requests are returned as effects.
 */
module ArticlesPage {
  import opened JsValue
  import Request
  import Strings

  /** The `useState` variables of the page. */
  datatype PageState = PageState(
    articles: Value,
    loading: bool,
    formOpen: bool,
    editingArticle: Value,
    title: Value,
    description: Value,
    message: Option<string>,
    summary: Value,
    summarizing: Value,
    summaryModalOpen: bool)

  /** The initial values passed to `useState`. */
  const Initial := PageState(Arr([]), true, false, Null, Str(""), Str(""), None, Null, Null, false)

  const UpdatedMessage := "Article updated successfully"
  const CreatedMessage := "Article created successfully"
  const SubmitErrorMessage := "Failed to process request"
  const DeletedMessage := "Article deleted successfully"
  const DeleteErrorMessage := "Failed to delete article"
  const SummarizeFailedMessage := "Failed to summarize article"
  const SummarizeErrorMessage := "Error summarizing article"

  const ArticlesPath := "/articles/"

  /** A `makeRequest(url, args)` call. */
  datatype Call = Call(url: string, args: Option<Request.Args>)

  /**
   * The code that runs when an awaited request settles. The submit
   * continuation keeps whether an article was being edited when the form was
   * submitted, as the handler's closure does.
   */
  datatype Resume = AfterFetch | AfterSubmit(wasEditing: bool) | AfterDelete | AfterSummarize

  /** A request handed to `makeRequest`, or a 3000 ms timer started by `showMessage`. */
  datatype Effect = Send(call: Call, resume: Resume) | ArmTimer

  datatype Step = Step(state: PageState, effects: seq<Effect>)

  /** How an awaited promise settled. */
  datatype Settled = Resolved(response: Request.Response) | Rejected

  /** `response.success` is truthy. */
  predicate Succeeded(r: Request.Response) {
    Truthy(Field(r, "success"))
  }

  /** `makeRequest(url, { options: { method, body } })`. */
  function CallWith(url: string, httpMethod: string, body: Value): Call {
    Call(url, Some(Request.Args(Some(Request.Options(Some(httpMethod), Request.Plain(body), None)), None)))
  }

  /** Every field other than the ones a handler is documented to set is left as it was. */
  predicate OnlyFormChanged(s: PageState, s': PageState) {
    s' == s.(formOpen := s'.formOpen, editingArticle := s'.editingArticle,
             title := s'.title, description := s'.description)
  }

  /** The form is closed with an empty draft and no article under edit. */
  predicate FormCleared(s: PageState) {
    !s.formOpen && s.editingArticle == Null && s.title == Str("") && s.description == Str("")
  }

  // ---------------------------------------------------------------------
  // showMessage and its timer

  /** `showMessage(msg)`: display `msg` and start a timer whose expiry clears the message. */
  function ShowMessage(s: PageState, msg: string): (st: Step)
    ensures st.state.message == Some(msg) && st.state.(message := s.message) == s
    ensures st.effects == [ArmTimer]
  {
    Step(s.(message := Some(msg)), [ArmTimer])
  }

  /** The `setTimeout` callback: clears whatever message is displayed. */
  function TimerExpired(s: PageState): (s': PageState)
    ensures s'.message == None && s'.(message := s.message) == s
  {
    s.(message := None)
  }

  // ---------------------------------------------------------------------
  // fetchArticles

  const FetchCall := Call(ArticlesPath, None)

  /** `fetchArticles()` up to its await: a GET of the list, no state change. */
  function FetchArticles(s: PageState): (st: Step)
    ensures st.state == s
    ensures st.effects == [Send(FetchCall, AfterFetch)]
  {
    Step(s, [Send(FetchCall, AfterFetch)])
  }

  /** The list is read with a GET of the base URL plus `/articles/`, no body, the JSON content type. */
  lemma FetchRequest(base: string)
    ensures Request.CompleteUrl(base, FetchCall.url, FetchCall.args) == base + ArticlesPath
    ensures Request.BuildInit(FetchCall.args) == Request.Init("GET", Request.NoBody, map["Content-Type" := Request.JsonContentType])
  {
    Request.NoQueryKeepsUrl(base, FetchCall.url, FetchCall.args);
    RelativePath(base, FetchCall.url);
    Request.DefaultInit();
  }

  /**
   * `fetchArticles()` after the request settles: on success the list becomes
   * `response.data` wholesale, otherwise it is kept; `loading` ends false.
   */
  function FetchSettled(s: PageState, o: Settled): (s': PageState)
    ensures !s'.loading
    ensures o.Resolved? && Succeeded(o.response) ==> s'.articles == Field(o.response, "data")
    ensures !(o.Resolved? && Succeeded(o.response)) ==> s'.articles == s.articles
    ensures s' == s.(articles := s'.articles, loading := false)
  {
    match o
    case Resolved(r) =>
      if Succeeded(r) then s.(articles := Field(r, "data"), loading := false)
      else s.(loading := false)
    case Rejected => s.(loading := false)
  }

  // ---------------------------------------------------------------------
  // The form

  /**
   * `handleOpenForm(article)()`: an omitted article defaults to null; the
   * draft is taken from the article when it is truthy and is empty otherwise.
   */
  function OpenForm(s: PageState, article: Value): (s': PageState)
    ensures s'.formOpen
    ensures s'.editingArticle == (if article.Undefined? then Null else article)
    ensures Truthy(article) ==>
      && Member(article, "title") == Read(s'.title)
      && Member(article, "description") == Read(s'.description)
    ensures !Truthy(article) ==> s'.title == Str("") && s'.description == Str("")
    ensures OnlyFormChanged(s, s')
  {
    var a := if article.Undefined? then Null else article;
    s.(editingArticle := a,
       title := if Truthy(a) then Member(a, "title").value else Str(""),
       description := if Truthy(a) then Member(a, "description").value else Str(""),
       formOpen := true)
  }

  /** `handleCloseForm()`: closes the form and clears the draft and the article under edit. */
  function CloseForm(s: PageState): (s': PageState)
    ensures FormCleared(s')
    ensures OnlyFormChanged(s, s')
  {
    s.(formOpen := false, editingArticle := Null, title := Str(""), description := Str(""))
  }

  /** The title input's `onChange`: the draft title becomes the typed text. */
  function EditTitle(s: PageState, text: string): (s': PageState)
    ensures s'.title == Str(text) && OnlyFormChanged(s, s') && s'.formOpen == s.formOpen
    ensures s'.editingArticle == s.editingArticle && s'.description == s.description
  {
    s.(title := Str(text))
  }

  /** The description textarea's `onChange`. */
  function EditDescription(s: PageState, text: string): (s': PageState)
    ensures s'.description == Str(text) && OnlyFormChanged(s, s') && s'.formOpen == s.formOpen
    ensures s'.editingArticle == s.editingArticle && s'.title == s.title
  {
    s.(description := Str(text))
  }

  /** The close button of the summary modal. */
  function CloseSummary(s: PageState): (s': PageState)
    ensures !s'.summaryModalOpen
    ensures s'.(summaryModalOpen := s.summaryModalOpen) == s
  {
    s.(summaryModalOpen := false)
  }

  /** Closing twice is closing once. */
  lemma CloseFormIdempotent(s: PageState)
    ensures CloseForm(CloseForm(s)) == CloseForm(s)
    ensures FormCleared(s) ==> CloseForm(s) == s
  {
  }

  /** Closing undoes opening, whatever article was opened. */
  lemma CloseUndoesOpen(s: PageState, article: Value)
    ensures CloseForm(OpenForm(s, article)) == CloseForm(s)
  {
  }

  // ---------------------------------------------------------------------
  // handleSubmit

  /** PUT `/articles/<id>` while editing a (truthy) article, POST `/articles/` otherwise, with the draft as body. */
  function SubmitCall(s: PageState): Call {
    var editing := Truthy(s.editingArticle);
    var url := ArticlesPath + (if editing then Text(Member(s.editingArticle, "_id").value) else "");
    CallWith(url, if editing then "PUT" else "POST", Obj(map["title" := s.title, "description" := s.description]))
  }

  /** `handleSubmit` up to its await: `loading` is raised and the request issued. */
  function Submit(s: PageState): (st: Step)
    ensures st.state.loading
    ensures st.state == s.(loading := true)
    ensures st.effects == [Send(SubmitCall(s), AfterSubmit(Truthy(s.editingArticle)))]
  {
    Step(s.(loading := true), [Send(SubmitCall(s), AfterSubmit(Truthy(s.editingArticle)))])
  }

  /**
   * `handleSubmit` after the request settles. Success shows the updated or
   * created message, refreshes the list and closes the form; a resolved
   * failure changes nothing but `loading`; a rejection would show the generic
   * failure message. `loading` ends false in every case.
   */
  function SubmitSettled(s: PageState, wasEditing: bool, o: Settled): (st: Step)
    ensures !st.state.loading
    ensures o.Resolved? && Succeeded(o.response) ==>
      && st.state.message == Some(if wasEditing then UpdatedMessage else CreatedMessage)
      && FormCleared(st.state)
      && st.state.articles == s.articles
      && st.effects == [ArmTimer, Send(FetchCall, AfterFetch)]
    ensures o.Resolved? && Succeeded(o.response) ==>
      st == Step(CloseForm(s).(loading := false, message := Some(if wasEditing then UpdatedMessage else CreatedMessage)),
                 [ArmTimer, Send(FetchCall, AfterFetch)])
    ensures o.Resolved? && !Succeeded(o.response) ==> st == Step(s.(loading := false), [])
    ensures o.Rejected? ==> st == Step(s.(loading := false, message := Some(SubmitErrorMessage)), [ArmTimer])
  {
    match o
    case Resolved(r) =>
      if Succeeded(r) then
        var shown := ShowMessage(s, if wasEditing then UpdatedMessage else CreatedMessage);
        var refresh := FetchArticles(shown.state);
        Step(CloseForm(refresh.state).(loading := false), shown.effects + refresh.effects)
      else Step(s.(loading := false), [])
    case Rejected =>
      var shown := ShowMessage(s, SubmitErrorMessage);
      Step(shown.state.(loading := false), shown.effects)
  }

  /**
   * Submitting while editing a truthy article sends a PUT to `/articles/`
   * followed by the article's `_id`; otherwise a POST to `/articles/`. The
   * helper then targets the base URL plus that path with the JSON content
   * type, no query string, and the current draft as the JSON body.
   */
  lemma SubmitRequest(s: PageState, base: string)
    ensures var c := SubmitCall(s);
      && (Truthy(s.editingArticle) ==>
           && c.url == ArticlesPath + Text(Member(s.editingArticle, "_id").value)
           && Request.BuildInit(c.args).httpMethod == "PUT")
      && (!Truthy(s.editingArticle) ==> c.url == ArticlesPath && Request.BuildInit(c.args).httpMethod == "POST")
      && Request.CompleteUrl(base, c.url, c.args) == base + c.url
      && Request.BuildInit(c.args).body == Request.JsonText(Obj(map["title" := s.title, "description" := s.description]))
      && Request.BuildInit(c.args).headers == map["Content-Type" := Request.JsonContentType]
  {
    var c := SubmitCall(s);
    Request.NoQueryKeepsUrl(base, c.url, c.args);
    RelativePath(base, c.url);
  }

  /** Every path the page requests starts with '/', so the base URL is always put in front. */
  lemma RelativePath(base: string, path: string)
    requires Strings.StartsWith(path, ArticlesPath)
    ensures Request.ParsedUrl(base, path) == base + path
  {
    assert path[0] == '/';
  }

  // ---------------------------------------------------------------------
  // handleDelete

  function DeleteCall(id: Value): Call {
    CallWith(ArticlesPath + Text(id), "DELETE", Undefined)
  }

  /**
   * `handleDelete(id)()` up to its await: a declined confirmation returns
   * before anything happens; a confirmed one issues the DELETE. The state
   * itself is not touched either way.
   */
  function Delete(s: PageState, id: Value, confirmed: bool): (st: Step)
    ensures st.state == s
    ensures !confirmed <==> st.effects == []
    ensures confirmed ==> st.effects == [Send(DeleteCall(id), AfterDelete)]
  {
    if !confirmed then Step(s, []) else Step(s, [Send(DeleteCall(id), AfterDelete)])
  }

  /**
   * `handleDelete` after the request settles: success shows the deleted
   * message and refreshes; a resolved failure changes nothing (the article
   * stays in the list); a rejection would show the delete failure message.
   * The list itself is never edited here.
   */
  function DeleteSettled(s: PageState, o: Settled): (st: Step)
    ensures st.state.articles == s.articles
    ensures o.Resolved? && Succeeded(o.response) ==>
      st == Step(s.(message := Some(DeletedMessage)), [ArmTimer, Send(FetchCall, AfterFetch)])
    ensures o.Resolved? && !Succeeded(o.response) ==> st == Step(s, [])
    ensures o.Rejected? ==> st == Step(s.(message := Some(DeleteErrorMessage)), [ArmTimer])
  {
    match o
    case Resolved(r) =>
      if Succeeded(r) then
        var shown := ShowMessage(s, DeletedMessage);
        var refresh := FetchArticles(shown.state);
        Step(refresh.state, shown.effects + refresh.effects)
      else Step(s, [])
    case Rejected => ShowMessage(s, DeleteErrorMessage)
  }

  /** The DELETE goes to the base URL plus `/articles/<id>`, without body and without query string. */
  lemma DeleteRequest(id: Value, base: string)
    ensures var c := DeleteCall(id);
      && Request.CompleteUrl(base, c.url, c.args) == base + "/articles/" + Text(id)
      && Request.BuildInit(c.args).httpMethod == "DELETE"
      && Request.BuildInit(c.args).body == Request.NoBody
  {
    var c := DeleteCall(id);
    Request.NoQueryKeepsUrl(base, c.url, c.args);
    RelativePath(base, c.url);
  }

  // ---------------------------------------------------------------------
  // handleSummarize

  function SummarizeCall(id: Value): Call {
    CallWith(ArticlesPath + Text(id) + "/summarize", "POST", Undefined)
  }

  /** The summary is requested with a POST to the base URL plus `/articles/<id>/summarize`, without body. */
  lemma SummarizeRequest(id: Value, base: string)
    ensures var c := SummarizeCall(id);
      && Request.CompleteUrl(base, c.url, c.args) == base + "/articles/" + Text(id) + "/summarize"
      && Request.BuildInit(c.args).httpMethod == "POST"
      && Request.BuildInit(c.args).body == Request.NoBody
  {
    var c := SummarizeCall(id);
    assert c.url == ArticlesPath + (Text(id) + "/summarize");
    assert c.url[..|ArticlesPath|] == ArticlesPath;
    Request.NoQueryKeepsUrl(base, c.url, c.args);
    RelativePath(base, c.url);
  }

  /** `handleSummarize(id)()` up to its await: marks `id` pending and drops the previous summary. */
  function Summarize(s: PageState, id: Value): (st: Step)
    ensures st.state.summarizing == id && st.state.summary == Null
    ensures st.state == s.(summarizing := id, summary := Null)
    ensures st.effects == [Send(SummarizeCall(id), AfterSummarize)]
  {
    Step(s.(summarizing := id, summary := Null), [Send(SummarizeCall(id), AfterSummarize)])
  }

  /**
   * `handleSummarize` after the request settles. On success it reads
   * `response.data.summary` (which throws when `data` is null or undefined,
   * landing in the catch) and opens the modal; on a resolved failure it shows
   * the failure message; `summarizing` is cleared in every case.
   */
  function SummarizeSettled(s: PageState, o: Settled): (st: Step)
    ensures st.state.summarizing == Null
    ensures st.state.articles == s.articles && st.state.formOpen == s.formOpen
    ensures !st.state.summaryModalOpen ==> st.state.summaryModalOpen == s.summaryModalOpen
    ensures st.state.summaryModalOpen != s.summaryModalOpen ==>
      o.Resolved? && Succeeded(o.response) && !Nullish(Field(o.response, "data"))
    ensures o.Resolved? && !Succeeded(o.response) ==>
      st == Step(s.(summarizing := Null, message := Some(SummarizeFailedMessage)), [ArmTimer])
    ensures o.Rejected? || (o.Resolved? && Succeeded(o.response) && Nullish(Field(o.response, "data"))) ==>
      st == Step(s.(summarizing := Null, message := Some(SummarizeErrorMessage)), [ArmTimer])
    ensures o.Resolved? && Succeeded(o.response) && !Nullish(Field(o.response, "data")) ==>
      && st.state.summaryModalOpen
      && Member(Field(o.response, "data"), "summary") == Read(st.state.summary)
      && st == Step(s.(summarizing := Null, summary := st.state.summary, summaryModalOpen := true), [])
  {
    var st :=
      match o
      case Resolved(r) =>
        if Succeeded(r) then
          match Member(Field(r, "data"), "summary")
          case TypeError => ShowMessage(s, SummarizeErrorMessage)
          case Read(v) => Step(s.(summary := v, summaryModalOpen := true), [])
        else ShowMessage(s, SummarizeFailedMessage)
      case Rejected => ShowMessage(s, SummarizeErrorMessage);
    Step(st.state.(summarizing := Null), st.effects)
  }

  /**
   * Summarizing article `id` marks it pending until its request settles, and
   * the pending mark is gone afterwards whatever the outcome; a failure leaves
   * the modal flag as it was.
   */
  lemma SummarizePendingCleared(s: PageState, id: Value, o: Settled)
    ensures Summarize(s, id).state.summarizing == id
    ensures Summarize(s, id).state.summary == Null
    ensures SummarizeSettled(Summarize(s, id).state, o).state.summarizing == Null
    ensures !(o.Resolved? && Succeeded(o.response)) ==>
      SummarizeSettled(Summarize(s, id).state, o).state.summaryModalOpen == s.summaryModalOpen
  {
  }

  /**
   * A summary that arrives and is then dismissed leaves the page as it was
   * before the click, except that the summary text stays stored.
   */
  lemma SummarizeThenClose(s: PageState, id: Value, o: Settled)
    requires !s.summaryModalOpen && s.summarizing == Null
    requires o.Resolved? && Succeeded(o.response) && !Nullish(Field(o.response, "data"))
    ensures var shown := SummarizeSettled(Summarize(s, id).state, o).state;
      && shown.summaryModalOpen
      && Member(Field(o.response, "data"), "summary") == Read(shown.summary)
      && CloseSummary(shown) == s.(summary := shown.summary)
  {
  }

  // ---------------------------------------------------------------------
  // The message timer

  /**
   * A timer always clears the message, even one shown after the timer was
   * started: after two messages in a row, the first expiry leaves nothing
   * displayed while the second timer is still pending. This follows from
   * `TimerExpired` clearing the message unconditionally.
   */
  lemma EarlierTimerClearsNewerMessage(s: PageState, first: string, second: string)
    ensures var a := ShowMessage(s, first); var b := ShowMessage(a.state, second);
      && b.state.message == Some(second)
      && |a.effects + b.effects| == 2
      && TimerExpired(b.state).message == None
  {
  }
}

=== FILE: js_value.dfy ===
/**
 * JavaScript values as the request helper and the articles page handle them:
 * truthiness, property access and the text a template literal `${v}` produces.
 * Numbers are restricted to integers.
 */
module JsValue {

  datatype Option<+T> = None | Some(value: T)

  datatype Value =
    | Undefined
    | Null
    | Bool(b: bool)
    | Num(n: int)
    | Str(s: string)
    | Arr(items: seq<Value>)
    | Obj(fields: map<string, Value>)

  /** JavaScript truthiness: `if (v)`, `v ? a : b`, `!v`. */
  predicate Truthy(v: Value) {
    match v
    case Undefined => false
    case Null => false
    case Bool(b) => b
    case Num(n) => n != 0
    case Str(s) => s != ""
    case Arr(_) => true
    case Obj(_) => true
  }

  predicate Nullish(v: Value) {
    v.Undefined? || v.Null?
  }

  /** Outcome of reading `v.key`: a value, or the TypeError thrown for null and undefined. */
  datatype Access = Read(value: Value) | TypeError

  /**
   * Property access `v.key` for a named (non-index, non-`length`) property:
   * objects yield the field or undefined, other non-nullish values undefined.
   */
  function Member(v: Value, key: string): (a: Access)
    requires key != "length"
    ensures a.TypeError? <==> Nullish(v)
    ensures a.Read? && a.value != Undefined ==> v.Obj? && key in v.fields && v.fields[key] == a.value
  {
    match v
    case Undefined => TypeError
    case Null => TypeError
    case Obj(f) => Read(if key in f then f[key] else Undefined)
    case _ => Read(Undefined)
  }

  /** Reading a property of an object literal (never throws). */
  function Field(fields: map<string, Value>, key: string): Value {
    if key in fields then fields[key] else Undefined
  }

  function DigitChar(d: nat): (c: char)
    requires d < 10
    ensures '0' <= c <= '9'
  {
    "0123456789"[d]
  }

  /** Decimal digits of a natural number, most significant first. */
  function NatText(n: nat): (t: string)
    ensures |t| >= 1
    ensures forall i :: 0 <= i < |t| ==> '0' <= t[i] <= '9'
  {
    if n < 10 then [DigitChar(n)] else NatText(n / 10) + [DigitChar(n % 10)]
  }

  function IntText(n: int): string {
    if n < 0 then "-" + NatText(-n) else NatText(n)
  }

  /** The string a template literal `${v}` interpolates for `v`. */
  function Text(v: Value): string
    decreases v, 1
  {
    match v
    case Undefined => "undefined"
    case Null => "null"
    case Bool(b) => if b then "true" else "false"
    case Num(n) => IntText(n)
    case Str(s) => s
    case Arr(items) => ElementsText(v, |items|)
    case Obj(_) => "[object Object]"
  }

  /**
   * `Array.prototype.join(",")` over the first `k` elements of the array `v`,
   * where null and undefined elements contribute the empty string.
   */
  function ElementsText(v: Value, k: nat): string
    requires v.Arr? && k <= |v.items|
    decreases v, 0, k
  {
    if k == 0 then ""
    else
      var x := v.items[k - 1];
      var t := if Nullish(x) then "" else Text(x);
      if k == 1 then t else ElementsText(v, k - 1) + "," + t
  }

  /** Distinct naturals have distinct decimal texts. */
  lemma {:induction false} NatTextInjective(m: nat, n: nat)
    requires NatText(m) == NatText(n)
    ensures m == n
  {
    if m < 10 && n < 10 {
      assert NatText(m)[0] == DigitChar(m);
    } else if m >= 10 && n >= 10 {
      var a, b := NatText(m / 10), NatText(n / 10);
      assert NatText(m) == a + [DigitChar(m % 10)];
      assert NatText(n) == b + [DigitChar(n % 10)];
      assert a == NatText(m)[..|NatText(m)| - 1];
      assert b == NatText(n)[..|NatText(n)| - 1];
      NatTextInjective(m / 10, n / 10);
      assert "0123456789"[m % 10] == "0123456789"[n % 10];
    }
  }
}

=== FILE: page_runs.dfy ===
/**
 * Runs of the articles page: user events, request settlements and timer
 * expiries applied one at a time to the page together with its pending
 * requests and timers. Every settlement is what the request helper resolves
 * to, which is never a rejection.
 */
module PageRuns {
  import opened JsValue
  import Request
  import opened ArticlesPage

  /** The page state plus the continuations awaiting a request and the number of unexpired message timers. */
  datatype World = World(page: PageState, inflight: multiset<Resume>, timers: nat)

  datatype Event =
    | OpenFormClicked(article: Value)
    | CloseFormClicked
    | TitleTyped(text: string)
    | DescriptionTyped(text: string)
    | SubmitClicked
    | DeleteClicked(id: Value, confirmed: bool)
    | SummarizeClicked(id: Value)
    | SummaryClosed
    | RequestSettled(resume: Resume, outcome: Request.Transport)
    | TimerFired

  function Resumes(effects: seq<Effect>): multiset<Resume> {
    if |effects| == 0 then multiset{}
    else (if effects[0].Send? then multiset{effects[0].resume} else multiset{}) + Resumes(effects[1..])
  }

  function Timers(effects: seq<Effect>): nat {
    if |effects| == 0 then 0
    else (if effects[0].ArmTimer? then 1 else 0) + Timers(effects[1..])
  }

  /** Installs a handler's new state and records the requests and timers it started. */
  function Launch(w: World, st: Step): World {
    World(st.state, w.inflight + Resumes(st.effects), w.timers + Timers(st.effects))
  }

  /** The page right after mounting: the effect has called `fetchArticles` once. */
  const Mounted := Launch(World(Initial, multiset{}, 0), FetchArticles(Initial))

  /** The promise `makeRequest` hands back for a transport outcome: always resolved. */
  function HelperSettles(t: Request.Transport): Settled {
    Resolved(Request.Classify(t))
  }

  /** The continuation `resume` run on the settled promise `o`. */
  function Continue(s: PageState, resume: Resume, o: Settled): Step {
    match resume
    case AfterFetch => Step(FetchSettled(s, o), [])
    case AfterSubmit(wasEditing) => SubmitSettled(s, wasEditing, o)
    case AfterDelete => DeleteSettled(s, o)
    case AfterSummarize => SummarizeSettled(s, o)
  }

  /**
   * Which events can happen. Form inputs and buttons exist only while the form
   * is open, the submit button is disabled while loading, the summary modal's
   * close button only while it is shown. No control calls the summarize
   * handler: the article card ignores the `onSummarize` it is given.
   */
  predicate Enabled(w: World, e: Event) {
    match e
    case OpenFormClicked(_) => true
    case CloseFormClicked => w.page.formOpen
    case TitleTyped(_) => w.page.formOpen
    case DescriptionTyped(_) => w.page.formOpen
    case SubmitClicked => w.page.formOpen && !w.page.loading
    case DeleteClicked(_, _) => true
    case SummarizeClicked(_) => false
    case SummaryClosed => w.page.summaryModalOpen
    case RequestSettled(resume, _) => resume in w.inflight
    case TimerFired => w.timers > 0
  }

  function Next(w: World, e: Event): World
    requires Enabled(w, e)
  {
    match e
    case OpenFormClicked(a) => w.(page := OpenForm(w.page, a))
    case CloseFormClicked => w.(page := CloseForm(w.page))
    case TitleTyped(text) => w.(page := EditTitle(w.page, text))
    case DescriptionTyped(text) => w.(page := EditDescription(w.page, text))
    case SubmitClicked => Launch(w, Submit(w.page))
    case DeleteClicked(id, confirmed) => Launch(w, Delete(w.page, id, confirmed))
    case SummarizeClicked(id) => Launch(w, Summarize(w.page, id))
    case SummaryClosed => w.(page := CloseSummary(w.page))
    case RequestSettled(resume, t) =>
      Launch(w.(inflight := w.inflight - multiset{resume}), Continue(w.page, resume, HelperSettles(t)))
    case TimerFired => World(TimerExpired(w.page), w.inflight, w.timers - 1)
  }

  /** Each event of `events` is enabled when it happens. */
  predicate ValidRun(w: World, events: seq<Event>)
    decreases |events|
  {
    |events| == 0 || (Enabled(w, events[0]) && ValidRun(Next(w, events[0]), events[1..]))
  }

  function Final(w: World, events: seq<Event>): World
    requires ValidRun(w, events)
    decreases |events|
  {
    if |events| == 0 then w else Final(Next(w, events[0]), events[1..])
  }

  /**
   * What holds of every world the page can reach:
   *  - the messages of the submit and delete catch branches never show;
   *  - a displayed message always has a timer pending that will clear it;
   *  - a closed form has an empty draft and no article under edit;
   *  - no summarize request is ever issued, so nothing is pending, no summary
   *    is held and the summary modal stays closed.
   */
  predicate Inv(w: World) {
    && w.page.message != Some(SubmitErrorMessage)
    && w.page.message != Some(DeleteErrorMessage)
    && (w.page.message.Some? ==> w.timers > 0)
    && (!w.page.formOpen ==> FormCleared(w.page))
    && AfterSummarize !in w.inflight
    && w.page.summarizing == Null
    && w.page.summary == Null
    && !w.page.summaryModalOpen
  }

  /** No effect in the list issues a summarize request. */
  predicate NoSummarizeSend(effects: seq<Effect>) {
    forall i :: 0 <= i < |effects| ==> !(effects[i].Send? && effects[i].resume == AfterSummarize)
  }

  lemma {:induction false} ResumesWithoutSummarize(effects: seq<Effect>)
    requires NoSummarizeSend(effects)
    ensures AfterSummarize !in Resumes(effects)
  {
    if |effects| > 0 {
      ResumesWithoutSummarize(effects[1..]);
    }
  }

  lemma MountedInv()
    ensures Inv(Mounted)
  {
    ResumesWithoutSummarize(FetchArticles(Initial).effects);
  }

  /** A settlement of anything but a summarize request keeps the invariant. */
  lemma SettleInv(w: World, resume: Resume, t: Request.Transport)
    requires Inv(w) && resume in w.inflight
    ensures Inv(Next(w, RequestSettled(resume, t)))
  {
    assert resume != AfterSummarize;
    var st := Continue(w.page, resume, HelperSettles(t));
    assert NoSummarizeSend(st.effects);
    ResumesWithoutSummarize(st.effects);
    assert (w.inflight - multiset{resume})[AfterSummarize] == 0;
  }

  /** Every enabled event keeps the invariant. */
  lemma NextInv(w: World, e: Event)
    requires Inv(w) && Enabled(w, e)
    ensures Inv(Next(w, e))
  {
    match e
    case SubmitClicked =>
      ResumesWithoutSummarize(Submit(w.page).effects);
    case DeleteClicked(id, confirmed) =>
      ResumesWithoutSummarize(Delete(w.page, id, confirmed).effects);
    case RequestSettled(resume, t) =>
      SettleInv(w, resume, t);
    case _ =>
  }

  /** The invariant holds after any valid run from a world satisfying it. */
  lemma {:induction false} RunInv(w: World, events: seq<Event>)
    requires Inv(w) && ValidRun(w, events)
    ensures Inv(Final(w, events))
    decreases |events|
  {
    if |events| > 0 {
      NextInv(w, events[0]);
      RunInv(Next(w, events[0]), events[1..]);
    }
  }

  /**
   * From mounting on, whatever the user does and however the server answers:
   * "Failed to process request" and "Failed to delete article" never show,
   * the summary modal never opens, and a closed form holds no draft.
   */
  lemma ReachableFacts(events: seq<Event>)
    requires ValidRun(Mounted, events)
    ensures var w := Final(Mounted, events);
      && w.page.message != Some(SubmitErrorMessage)
      && w.page.message != Some(DeleteErrorMessage)
      && !w.page.summaryModalOpen
      && (!w.page.formOpen ==> FormCleared(w.page))
  {
    MountedInv();
    RunInv(Mounted, events);
  }

  /**
   * Because the helper resolves `{ success: false }` instead of rejecting, a
   * failed submit or delete shows nothing and keeps the form, the draft and
   * the list; only `loading` is reset by the submit.
   */
  lemma HelperFailureIsSilent(s: PageState, wasEditing: bool, t: Request.Transport)
    requires t.NetworkError? || t.json.None? || !Request.SuccessStatus(t.status)
    ensures SubmitSettled(s, wasEditing, HelperSettles(t)) == Step(s.(loading := false), [])
    ensures DeleteSettled(s, HelperSettles(t)) == Step(s, [])
  {
    assert !Succeeded(Request.Classify(t));
  }

  /**
   * The summarize catch, unlike the other two, is reachable through the
   * helper: a success whose body is `null` or undefined makes
   * `response.data.summary` throw, whatever the success status.
   */
  lemma SummarizeCatchReachable(s: PageState, status: int, body: Value)
    requires Request.SuccessStatus(status) && Nullish(body)
    ensures var st := SummarizeSettled(s, HelperSettles(Request.Received(status, Some(body))));
      st == Step(s.(summarizing := Null, message := Some(SummarizeErrorMessage)), [ArmTimer])
  {
    var r := Request.Classify(Request.Received(status, Some(body)));
    assert Field(r, "data") == body;
  }

  /**
   * A refresh answered with success replaces the list by the body the server
   * sent, even if another refresh landed first: `FetchSettled` never reads the
   * previous list, so the earlier outcome plays no role.
   */
  lemma RefreshLastWins(s: PageState, earlier: Request.Transport, status: int, body: Value)
    requires Request.SuccessStatus(status)
    ensures var later := Request.Received(status, Some(body));
      FetchSettled(FetchSettled(s, HelperSettles(earlier)), HelperSettles(later)).articles == body
  {
    var r := Request.Classify(Request.Received(status, Some(body)));
    assert Field(r, "data") == body;
  }
}

=== FILE: query_string.dfy ===
/**
 * `objectToQueryString` of the request helper: the entries of a parameter
 * object rendered as `?k=v&k=v...`, in entry order, with no encoding.
 */
module QueryString {
  import opened JsValue
  import opened Strings

  /** One element of `Object.entries(params)`. */
  type Entry = (string, Value)

  /** `${key}=${value}`: the key verbatim, the value as a template literal renders it. */
  function PairText(e: Entry): string {
    e.0 + "=" + Text(e.1)
  }

  function Pairs(entries: seq<Entry>): (ps: seq<string>)
    ensures |ps| == |entries|
    ensures forall i :: 0 <= i < |entries| ==> ps[i] == PairText(entries[i])
  {
    seq(|entries|, i requires 0 <= i < |entries| => PairText(entries[i]))
  }

  /**
   * The reduce of `objectToQueryString`: starting from '', each entry at index
   * `index` appends '?' (index 0) or '&' (later), then `key=value`.
   */
  function ObjectToQueryString(entries: seq<Entry>): string {
    if |entries| == 0 then ""
    else
      var n := |entries| - 1;
      ObjectToQueryString(entries[..n]) + (if n > 0 then "&" else "?") + PairText(entries[n])
  }

  /** The reduce produces '' for no entries and '?' followed by the '&'-joined pairs otherwise. */
  lemma {:induction false} QueryStringShape(entries: seq<Entry>)
    ensures |entries| == 0 ==> ObjectToQueryString(entries) == ""
    ensures |entries| >= 1 ==> ObjectToQueryString(entries) == "?" + Join(Pairs(entries), "&")
  {
    if |entries| >= 2 {
      var n := |entries| - 1;
      QueryStringShape(entries[..n]);
      assert Pairs(entries) == Pairs(entries[..n]) + [PairText(entries[n])];
      JoinSnoc(Pairs(entries[..n]), PairText(entries[n]), "&");
    } else if |entries| == 1 {
      assert entries[..0] == [];
    }
  }

  /**
   * With n >= 1 entries the string starts with '?' and holds n - 1 separating
   * '&' plus whatever '&' the unencoded keys and values carry themselves.
   */
  lemma SeparatorCount(entries: seq<Entry>)
    requires |entries| >= 1
    ensures ObjectToQueryString(entries)[0] == '?'
    ensures Count(ObjectToQueryString(entries), '&') == |entries| - 1 + CountAll(Pairs(entries), '&')
  {
    QueryStringShape(entries);
    CountJoin(Pairs(entries), '&');
    CountAppend("?", Join(Pairs(entries), "&"), '&');
  }

  /** Splits `key=value` at its first '='; a part without '=' is a key with an empty value. */
  function SplitPair(p: string): (string, string) {
    if '=' in p then
      var i := IndexOf(p, '=');
      (p[..i], p[i + 1..])
    else (p, "")
  }

  /** Reads a query string back into `(key, value text)` pairs. */
  function ParseQuery(q: string): seq<(string, string)> {
    if |q| == 0 then []
    else
      var ps := Split(q[1..], '&');
      seq(|ps|, i requires 0 <= i < |ps| => SplitPair(ps[i]))
  }

  /** The entries of `entries` as the text pairs the query string spells out. */
  function Rendered(entries: seq<Entry>): (r: seq<(string, string)>)
    ensures |r| == |entries|
  {
    seq(|entries|, i requires 0 <= i < |entries| => (entries[i].0, Text(entries[i].1)))
  }

  /** Keys free of '&' and '=' and values free of '&' survive the unencoded rendering. */
  predicate Unambiguous(entries: seq<Entry>) {
    forall i :: 0 <= i < |entries| ==>
      '&' !in entries[i].0 && '=' !in entries[i].0 && '&' !in Text(entries[i].1)
  }

  lemma SplitPairOfPair(e: Entry)
    requires '=' !in e.0
    ensures SplitPair(PairText(e)) == (e.0, Text(e.1))
  {
    var p := PairText(e);
    assert p[|e.0|] == '=';
    assert p[..|e.0|] == e.0;
    assert IndexOf(p, '=') == |e.0|;
    assert p[|e.0| + 1..] == Text(e.1);
  }

  /** Parsing the query string gives back every entry, in order, as long as nothing needed encoding. */
  lemma ParseRoundTrip(entries: seq<Entry>)
    requires Unambiguous(entries)
    ensures ParseQuery(ObjectToQueryString(entries)) == Rendered(entries)
  {
    QueryStringShape(entries);
    if |entries| >= 1 {
      var ps := Pairs(entries);
      var q := ObjectToQueryString(entries);
      assert q[1..] == Join(ps, "&");
      forall i | 0 <= i < |ps|
        ensures '&' !in ps[i]
      {
        assert ps[i] == entries[i].0 + "=" + Text(entries[i].1);
      }
      SplitJoin(ps, '&');
      forall i | 0 <= i < |entries|
        ensures ParseQuery(q)[i] == Rendered(entries)[i]
      {
        SplitPairOfPair(entries[i]);
      }
    }
  }
}

=== FILE: request.dfy ===
/**
 * `makeRequest` of the request helper with `fetch` replaced by its outcome:
 * URL resolution, request-option assembly and the classification of the
 * response into the `{ success, ... }` object the callers receive.
 */
module Request {
  import opened JsValue
  import opened Strings
  import QueryString

  /** `options.body`: a FormData instance (opaque handle) or any other value (undefined when absent). */
  datatype Payload = FormData(handle: nat) | Plain(value: Value)

  /** The `options` object; `None` in a field means the key is absent. */
  datatype Options = Options(httpMethod: Option<string>, body: Payload, headers: Option<map<string, string>>)

  /** The second argument `{ options, queryParams }`; `None` means undefined (or, for `queryParams`, falsy). */
  datatype Args = Args(options: Option<Options>, queryParams: Option<seq<QueryString.Entry>>)

  /** The default of the second argument, used when the caller passes none. */
  const DefaultArgs := Args(Some(Options(Some("GET"), Plain(Undefined), None)), Some([]))

  const JsonContentType := "application/json"

  /** The body handed to `fetch`: FormData unchanged, otherwise `JSON.stringify(body)` (undefined for undefined). */
  datatype SentBody = NoBody | Multipart(handle: nat) | JsonText(value: Value)

  /** The `requestOptions` passed to `fetch`. */
  datatype Init = Init(httpMethod: string, body: SentBody, headers: map<string, string>)

  /** What `fetch` and `response.json()` did: rejected, or a status with the parsed body (`None` when parsing rejected). */
  datatype Transport = NetworkError | Received(status: int, json: Option<Value>)

  /** The object `makeRequest` resolves to. */
  type Response = map<string, Value>

  /** A `fetch` call and the object the helper resolves to for it. */
  datatype Exchange = Exchange(target: string, init: Init, response: Response)

  function EffectiveArgs(args: Option<Args>): Args {
    if args.None? then DefaultArgs else args.value
  }

  /** Absolute URLs (those starting with "http") are kept; any other URL is appended to the base URL. */
  function ParsedUrl(base: string, url: string): string {
    if StartsWith(url, "http") then url else base + url
  }

  /** The parsed URL followed by the query string when `queryParams` is truthy. */
  function CompleteUrl(base: string, url: string, args: Option<Args>): string {
    var a := EffectiveArgs(args);
    var parsed := ParsedUrl(base, url);
    if a.queryParams.Some? then parsed + QueryString.ObjectToQueryString(a.queryParams.value) else parsed
  }

  function IsFormData(options: Option<Options>): bool {
    options.Some? && options.value.body.FormData?
  }

  /** `{ method: 'GET', ...options, body, headers: { ...json header unless FormData, ...options.headers } }`. */
  function BuildInit(args: Option<Args>): Init {
    var o := EffectiveArgs(args).options;
    var httpMethod := if o.Some? && o.value.httpMethod.Some? then o.value.httpMethod.value else "GET";
    var body :=
      if o.None? then NoBody
      else match o.value.body
        case FormData(h) => Multipart(h)
        case Plain(v) => if v.Undefined? then NoBody else JsonText(v);
    var defaults: map<string, string> := if IsFormData(o) then map[] else map["Content-Type" := JsonContentType];
    var caller := if o.Some? && o.value.headers.Some? then o.value.headers.value else map[];
    Init(httpMethod, body, defaults + caller)
  }

  /** Keys of `{ ...v }`: an object's own fields, the indices of a string or array, nothing otherwise. */
  function Spread(v: Value): (r: map<string, Value>)
    ensures v.Obj? ==> r == v.fields
    ensures v.Str? ==> forall k :: k in r ==> IsIndexKey(k, |v.s|)
    ensures v.Str? ==> forall i :: 0 <= i < |v.s| ==> NatText(i) in r && r[NatText(i)] == Str([v.s[i]])
    ensures v.Arr? ==> forall k :: k in r ==> IsIndexKey(k, |v.items|)
    ensures v.Arr? ==> forall i :: 0 <= i < |v.items| ==> NatText(i) in r && r[NatText(i)] == v.items[i]
    ensures !(v.Obj? || v.Str? || v.Arr?) ==> r == map[]
  {
    match v
    case Obj(f) => f
    case Str(s) => IndexMap(Chars(s))
    case Arr(items) => IndexMap(items)
    case _ => map[]
  }

  /** `k` is the key `${i}` of some index i below n. */
  predicate IsIndexKey(k: string, n: nat) {
    exists i :: 0 <= i < n && NatText(i) == k
  }

  /** `{ ...xs }` for an array-like `xs`: index i becomes the key `${i}`. */
  function IndexMap(xs: seq<Value>): (r: map<string, Value>)
    ensures forall k :: k in r ==> IsIndexKey(k, |xs|)
    ensures forall i :: 0 <= i < |xs| ==> NatText(i) in r && r[NatText(i)] == xs[i]
    decreases |xs|
  {
    if |xs| == 0 then map[]
    else
      var n := |xs| - 1;
      var r := IndexMap(xs[..n]);
      var r' := r[NatText(n) := xs[n]];
      IndexKeysExtend(r, n, r');
      IndexValuesExtend(xs, r);
      r'
  }

  /** The keys of the indices below n, plus the key of n, are keys of indices below n + 1. */
  lemma IndexKeysExtend(r: map<string, Value>, n: nat, r': map<string, Value>)
    requires forall k :: k in r ==> IsIndexKey(k, n)
    requires r'.Keys == r.Keys + {NatText(n)}
    ensures forall k :: k in r' ==> IsIndexKey(k, n + 1)
  {
    forall k | k in r'
      ensures IsIndexKey(k, n + 1)
    {
      if k == NatText(n) {
        assert 0 <= n < n + 1 && NatText(n) == k;
      } else {
        IndexKeyWiden(k, n);
      }
    }
  }

  /** Adding the entry for the last index keeps the entries of all earlier ones. */
  lemma IndexValuesExtend(xs: seq<Value>, r: map<string, Value>)
    requires |xs| >= 1
    requires forall i :: 0 <= i < |xs| - 1 ==> NatText(i) in r && r[NatText(i)] == xs[i]
    ensures var r' := r[NatText(|xs| - 1) := xs[|xs| - 1]];
      forall i :: 0 <= i < |xs| ==> NatText(i) in r' && r'[NatText(i)] == xs[i]
  {
    IndexKeyFresh(|xs| - 1);
  }

  lemma IndexKeyWiden(k: string, n: nat)
    requires IsIndexKey(k, n)
    ensures IsIndexKey(k, n + 1)
  {
    var i :| 0 <= i < n && NatText(i) == k;
    assert 0 <= i < n + 1 && NatText(i) == k;
  }

  /** No index below n has the key of n. */
  lemma IndexKeyFresh(n: nat)
    ensures forall i :: 0 <= i < n ==> NatText(i) != NatText(n)
  {
    forall i | 0 <= i < n
      ensures NatText(i) != NatText(n)
    {
      if NatText(i) == NatText(n) {
        NatTextInjective(i, n);
      }
    }
  }

  /** The one-character strings of `s`, as spreading a string yields them. */
  function Chars(s: string): (r: seq<Value>)
    ensures |r| == |s|
    ensures forall i :: 0 <= i < |s| ==> r[i] == Str([s[i]])
  {
    seq(|s|, i requires 0 <= i < |s| => Str([s[i]]))
  }

  predicate SuccessStatus(status: int) {
    200 <= status <= 399
  }

  /**
   * The object `makeRequest` resolves to: `{ data, success: true }` for a
   * status in [200, 399]; the error body's fields with `success: false` for
   * any other status; `{ success: false }` when `fetch` or `response.json()`
   * rejected.
   */
  function Classify(t: Transport): (r: Response)
    ensures "success" in r
    ensures r["success"] == Bool(t.Received? && t.json.Some? && SuccessStatus(t.status))
  {
    match t
    case NetworkError => map["success" := Bool(false)]
    case Received(status, json) =>
      if json.None? then map["success" := Bool(false)]
      else if SuccessStatus(status) then map["data" := json.value, "success" := Bool(true)]
      else Spread(json.value)["success" := Bool(false)]
  }

  /** The whole helper: where it sends the request, with which options, and what it resolves to. */
  function MakeRequest(base: string, url: string, args: Option<Args>, t: Transport): (x: Exchange)
    ensures "success" in x.response
    ensures x.response["success"] == Bool(true) ==> "data" in x.response
  {
    Exchange(CompleteUrl(base, url, args), BuildInit(args), Classify(t))
  }

  // ---------------------------------------------------------------------
  // URL resolution

  /**
   * A URL starting with "http" is used unchanged and any other gets the base
   * URL in front; either way the caller's URL ends the result, and resolving
   * against an absolute base is idempotent.
   */
  lemma ParsedUrlResolves(base: string, url: string)
    ensures StartsWith(url, "http") ==> ParsedUrl(base, url) == url
    ensures !StartsWith(url, "http") ==> ParsedUrl(base, url) == base + url
    ensures var p := ParsedUrl(base, url); |url| <= |p| && p[|p| - |url|..] == url
    ensures StartsWith(base, "http") ==> ParsedUrl(base, ParsedUrl(base, url)) == ParsedUrl(base, url)
  {
    if StartsWith(base, "http") && !StartsWith(url, "http") {
      assert (base + url)[..4] == base[..4];
    }
  }

  /**
   * Without `queryParams` the complete URL is the parsed URL; without a second
   * argument the default `{}` adds the empty query string, so it is too.
   */
  lemma NoQueryKeepsUrl(base: string, url: string, args: Option<Args>)
    requires args.None? || args.value.queryParams.None?
    ensures CompleteUrl(base, url, args) == ParsedUrl(base, url)
  {
    QueryString.QueryStringShape([]);
  }

  /** The complete URL is the parsed URL followed by the query string of the given parameters. */
  lemma CompleteUrlExtends(base: string, url: string, args: Args)
    requires args.queryParams.Some? && |args.queryParams.value| >= 1
    ensures var c := CompleteUrl(base, url, Some(args)); var p := ParsedUrl(base, url);
      StartsWith(c, p) && c[|p|] == '?' &&
      c[|p| + 1..] == Join(QueryString.Pairs(args.queryParams.value), "&")
  {
    QueryString.QueryStringShape(args.queryParams.value);
    var c := CompleteUrl(base, url, Some(args));
    var p := ParsedUrl(base, url);
    assert c == p + ("?" + Join(QueryString.Pairs(args.queryParams.value), "&"));
    assert c[..|p|] == p;
  }

  // ---------------------------------------------------------------------
  // Request options

  /**
   * The method is "GET" unless `options.method` is given; the JSON
   * Content-Type is sent exactly when the body is not FormData, unless the
   * caller's headers set that key; every caller header is sent as given and
   * no other header is added.
   */
  lemma InitHeadersAndMethod(args: Option<Args>)
    ensures var o := EffectiveArgs(args).options; var init := BuildInit(args);
      && (init.httpMethod == if o.Some? && o.value.httpMethod.Some? then o.value.httpMethod.value else "GET")
      && var caller := if o.Some? && o.value.headers.Some? then o.value.headers.value else map[];
         && (forall k :: k in caller ==> k in init.headers && init.headers[k] == caller[k])
         && ("Content-Type" !in caller ==>
              ("Content-Type" in init.headers <==> !IsFormData(o)))
         && ("Content-Type" !in caller && !IsFormData(o) ==> init.headers["Content-Type"] == JsonContentType)
         && init.headers.Keys == caller.Keys + (if IsFormData(o) then {} else {"Content-Type"})
  {
  }

  /** A FormData body is passed through untouched; any other defined body is sent as its JSON text. */
  lemma InitBody(options: Options)
    ensures var init := BuildInit(Some(Args(Some(options), None)));
      && (options.body.FormData? ==> init.body == Multipart(options.body.handle))
      && (options.body.Plain? && options.body.value != Undefined ==> init.body == JsonText(options.body.value))
      && (options.body == Plain(Undefined) ==> init.body == NoBody)
  {
  }

  /** Without a second argument the request is a GET with the JSON content type and no body. */
  lemma DefaultInit()
    ensures BuildInit(None) == Init("GET", NoBody, map["Content-Type" := JsonContentType])
  {
  }

  // ---------------------------------------------------------------------
  // Classification

  /** Success exactly when a body was parsed and the status lies in [200, 399]; the data is that body. */
  lemma ClassifySuccess(t: Transport)
    ensures Classify(t)["success"] == Bool(true) <==> t.Received? && t.json.Some? && SuccessStatus(t.status)
    ensures Classify(t)["success"] == Bool(true) ==>
      Classify(t).Keys == {"data", "success"} && Classify(t)["data"] == t.json.value
  {
  }

  /**
   * A parsed error body is merged in: each of its fields except `success`
   * keeps its value, and `success` is false even when the body set it.
   */
  lemma ClassifyErrorBody(status: int, body: Value)
    requires !SuccessStatus(status)
    ensures var r := Classify(Received(status, Some(body)));
      && r.Keys == Spread(body).Keys + {"success"}
      && r["success"] == Bool(false)
      && (forall k :: k in Spread(body) && k != "success" ==> r[k] == Spread(body)[k])
  {
  }

  /** An error object body keeps all its own fields next to `success: false`. */
  lemma ClassifyErrorObject(status: int, fields: map<string, Value>)
    requires !SuccessStatus(status)
    ensures var r := Classify(Received(status, Some(Obj(fields))));
      r == fields["success" := Bool(false)]
  {
  }

  /** Any exception, from `fetch` or from `response.json()`, resolves to exactly `{ success: false }`. */
  lemma ClassifyThrown(t: Transport)
    requires t.NetworkError? || t.json.None?
    ensures Classify(t) == map["success" := Bool(false)]
  {
  }
}

=== FILE: strings.dfy ===
/** Plain string operations used to state what the query string and URL builders produce. */
module Strings {

  predicate StartsWith(s: string, prefix: string) {
    |prefix| <= |s| && s[..|prefix|] == prefix
  }

  /** `parts` separated by `sep`, first part first. */
  function Join(parts: seq<string>, sep: string): string {
    if |parts| == 0 then ""
    else if |parts| == 1 then parts[0]
    else parts[0] + sep + Join(parts[1..], sep)
  }

  /** Number of occurrences of `c` in `s`. */
  function Count(s: string, c: char): nat {
    if |s| == 0 then 0
    else (if s[0] == c then 1 else 0) + Count(s[1..], c)
  }

  /** Total number of occurrences of `c` across all of `parts`. */
  function CountAll(parts: seq<string>, c: char): nat {
    if |parts| == 0 then 0 else Count(parts[0], c) + CountAll(parts[1..], c)
  }

  /** Index of the first occurrence of `c` in `s`. */
  function IndexOf(s: string, c: char): (i: nat)
    requires c in s
    ensures i < |s| && s[i] == c && c !in s[..i]
  {
    if s[0] == c then 0
    else
      assert c in s[1..];
      var j := IndexOf(s[1..], c);
      assert s[..j + 1] == [s[0]] + s[1..][..j];
      j + 1
  }

  /** `s` cut at every occurrence of `c` (always at least one part). */
  function Split(s: string, c: char): (parts: seq<string>)
    decreases |s|
  {
    if c !in s then [s]
    else
      var i := IndexOf(s, c);
      [s[..i]] + Split(s[i + 1..], c)
  }

  lemma {:induction false} CountAppend(a: string, b: string, c: char)
    ensures Count(a + b, c) == Count(a, c) + Count(b, c)
  {
    if |a| == 0 {
      assert a + b == b;
    } else {
      assert (a + b)[1..] == a[1..] + b;
      CountAppend(a[1..], b, c);
    }
  }

  /** Adding a last part to a non-empty list adds one separator and that part. */
  lemma {:induction false} JoinSnoc(parts: seq<string>, p: string, sep: string)
    requires |parts| >= 1
    ensures Join(parts + [p], sep) == Join(parts, sep) + sep + p
  {
    if |parts| == 1 {
      assert (parts + [p])[1..] == [p];
    } else {
      assert (parts + [p])[1..] == parts[1..] + [p];
      JoinSnoc(parts[1..], p, sep);
    }
  }

  /** A list of n >= 1 parts joined by `c` holds n - 1 separators plus the parts' own. */
  lemma {:induction false} CountJoin(parts: seq<string>, c: char)
    requires |parts| >= 1
    ensures Count(Join(parts, [c]), c) == |parts| - 1 + CountAll(parts, c)
  {
    if |parts| == 1 {
      assert CountAll(parts[1..], c) == 0;
    } else {
      CountJoin(parts[1..], c);
      CountAppend(parts[0] + [c], Join(parts[1..], [c]), c);
      CountAppend(parts[0], [c], c);
      assert Count([c], c) == 1 by {
        assert [c][1..] == [];
      }
    }
  }

  /** Splitting at `c` undoes joining with `c` when no part contains `c`. */
  lemma {:induction false} SplitJoin(parts: seq<string>, c: char)
    requires |parts| >= 1
    requires forall i :: 0 <= i < |parts| ==> c !in parts[i]
    ensures Split(Join(parts, [c]), c) == parts
  {
    if |parts| == 1 {
    } else {
      var rest := Join(parts[1..], [c]);
      var s := parts[0] + [c] + rest;
      assert s[|parts[0]|] == c;
      assert c in s;
      assert s[..|parts[0]|] == parts[0];
      assert IndexOf(s, c) == |parts[0]|;
      assert s[|parts[0]| + 1..] == rest;
      SplitJoin(parts[1..], c);
    }
  }
}
